=== FILE: README.md ===
# Telephone book: a Dafny model

A model of the console address book in `main.py`. The program loads `name:number` lines from a
text file into a dictionary. The user then creates, renames, renumbers, finds and deletes
contacts, with numbers checked against one Russian mobile format. On exit the book is written
back sorted by name.

The model is functional. A book is a `map<string, string>`, and every operation is a pure
function that returns the new book or an error. A prompt that asks again on bad input is a
function over the finite list of lines the user types. It reports how many lines it read.
Running out of lines is `Raised`, because `input()` raises at the end of input.

Modules:

- `Wrappers` (`wrappers.dfy`): `Option`, `Result`, and `Reply`, the outcome of an interactive
  step (a value, a cancel, or input running out) with the number of answers it read.
- `Ordering` (`ordering.dfy`): Python's `<` on `str` (code-point lexicographic order), proved
  to be a strict total order. Also sorted insertion and `SortedKeys`, the `sorted()` of a set
  of names.
- `Validator` (`validator.dfy`): `valid_number`. It is proved equal to an independent
  description: prefix `8` or `+7`, then ten digits, bare or written `(ddd)ddd-dd-dd`.
- `Store` (`store.dfy`): `contact_exists` and the mutation steps (insert, rename, renumber,
  delete, lookup, copy one entry), each with its frame condition.
- `Codec` (`codec.dfy`): `readlines`, `str.split(":")`, `fill_dict`, the sorted save loop
  of `main` and `show_contacts`, with the save/load round trip.
- `Picker` (`picker.dfy`): the `.txt` filter, the quote stripping of the path, and the 1-based
  choice in `choose_text_file`.
- `Session` (`session.dfy`): the re-prompt loops of `create_contact`, `change_contact`
  (with `get_name`) and `delete_contact`.

Behaviours of the code the model keeps:

- A contact "exists" only if its number is non-empty. `contact_exists` is
  `bool(contact_book.get(name, 0))`, so a name stored with `""` counts as absent. It can be
  overwritten by create, and it can be the target of a rename. Renaming onto such a name drops
  that entry, so the book shrinks by one (`Store.Rename`).
- A line loads only if it holds exactly one colon. `name, number = line.split(":")` raises for
  two or more colons as well as for none.
- `number[:-1]` drops the last character whatever it is. A last line with no newline
  therefore loses a digit (`Codec.UnterminatedLastLine`).
- Typing `cancel` at the first number prompt does not cancel. It is an invalid number, so the
  prompt asks again; only `cancel` at a repeated prompt aborts (`Session.FirstCancelAsksAgain`).
  The same holds for `get_name`.
- The new-name prompt of a rename cannot be cancelled. `get_name` signals cancel by returning
  `""`, so an existing contact literally named `""` also aborts the change.
- Any answer to "name or number" other than `name`, `number` or `cancel` makes the code call
  `change_contact()` without its argument. That raises `TypeError`, modelled as `Raised`.

## Model

| member | source | states |
|---|---|---|
| Validator.IsInvalid | main.py:19-21 | An accepted number has length 11, 12, 15 or 16 and starts with `8` or `+7`. |
| Validator.AcceptedIffRendered | main.py:19-21 | `valid_number` is false exactly for `8` or `+7` followed by `(ddd)ddd-dd-dd` or by ten digits, in both directions. |
| Validator.GroupRoundTrip | main.py:21 | The ten digits taken out of a grouped `(ddd)ddd-dd-dd` part, grouped again, give the same text. |
| Validator.CancelIsInvalid | main.py:21 | The cancel token is never a valid number. |
| Store.Exists | main.py:15-16 | A name exists iff it is a key whose number is non-empty; derived from `dict.get` with default 0 and Python truthiness. |
| Store.Add | main.py:37-41 | Insert fails iff the name exists. Otherwise the name maps to the number, the keys become the old keys plus the name, every other entry is unchanged, and a non-empty number makes the name exist. |
| Store.Rename | main.py:63-69 | Rename fails iff the old name does not exist or the new one does. On success the names differ, the new name holds the old number, the old key is gone, and nothing else changes. The size is kept when the new name was not a key and drops by one otherwise. |
| Store.RenameBack | main.py:63-69 | Renaming to a name that is not a key, then back, restores the book. |
| Store.SetNumber | main.py:87 | The number is overwritten only for an existing contact; the keys and all other entries are unchanged. |
| Store.Remove | main.py:109 | `del` fails iff the name is not a key. Otherwise exactly that key is removed, nothing else changes, the size drops by one, and the name no longer exists. |
| Store.AddThenRemove | main.py:37-41 | Adding a fresh name and deleting it again gives back the original book. |
| Store.Find | main.py:98-100 | Lookup returns the stored number (even an empty one) for a key, and the not-found message otherwise. |
| Store.Copy | main.py:165-171 | Copying one name fails iff it exists in the original book or does not exist in the other. Otherwise it adds the other book's number under that name and changes nothing else. |
| Session.Prompt | main.py:48-54 | A re-prompt loop returns the line it stops at. Every line before it was refused and, where cancel applies, was not `cancel`. Cancel only counts at a repeated prompt, and there an accepted line is never `cancel`. |
| Session.ReadNumber | main.py:29-35 | The number prompt returns the first valid line typed. Every earlier line was invalid and, after the first, not `cancel`. A cancel comes at the second line or later. |
| Session.FirstCancelAsksAgain | main.py:29-35 | `cancel` typed at the first number prompt is refused, and the next valid number is taken. |
| Session.GetName | main.py:48-54 | `get_name` returns the first typed name of an existing contact. Every earlier name did not exist and, after the first, was not `cancel`. A cancel comes at the second line or later, and a name taken after a retry is never `cancel`. |
| Session.FreshName | main.py:63-65 | The new-name prompt returns the first typed name that does not exist. Every earlier name existed, and the prompt never cancels. |
| Session.CreateContact | main.py:24-42 | `cancel` as the name aborts at once, and every cancel ends on a typed `cancel`. A completed create adds one name that did not exist and is not `cancel`, with a valid number, and changes no existing contact. A free name followed by a valid number completes in that first round; a taken name restarts the step (`Session.CreateContactRetries`). |
| Session.CreateContactRetries | main.py:37-41 | A name that already exists, once a valid number is typed for it, makes the step start again from the name prompt on the following lines. |
| Session.CreateContactTyped | main.py:24-42 | A completed create stores a name the user typed, and its number is the last line read, even after rounds restarted by a taken name. |
| Session.ChangeName | main.py:56-70 | A completed rename moves the contact `get_name` returned to the last name typed. That name was free, and nothing else changes. Once `get_name` yields a non-empty name and a free name is typed, the rename completes. |
| Session.ChangeNumber | main.py:72-88 | A completed renumbering gives the contact `get_name` returned the last line typed, a valid number, and changes nothing else. Once `get_name` yields a non-empty name and a valid number is typed, it completes. |
| Session.ChangeContact | main.py:45-95 | Only the `name` and `number` answers change the book: the first renames a contact, the second renumbers one. `cancel` aborts, and any other answer raises. |
| Session.ChangeContactRenames | main.py:56-70 | After `name`, a completed change moves the contact `get_name` returned to the last name typed, which was free. The change completes once `get_name` yields a non-empty name and a free name follows. |
| Session.ChangeContactRenumbers | main.py:72-88 | After `number`, a completed change gives the contact `get_name` returned the last line typed as its valid number. The change completes once `get_name` yields a non-empty name and a valid number follows. |
| Session.DeleteContact | main.py:103-110 | The menu delete removes exactly the contact named by the last line read, which existed, and changes nothing else. Every earlier name did not exist. It raises iff no typed name exists, and it cannot be cancelled. |
| Ordering.LessByFirstDifference | main.py:115 | Python's `<` on `str`: after a common prefix, the first differing code point decides, and a proper prefix is smaller. |
| Ordering.LessIrreflexive | main.py:115 | No name sorts before itself. |
| Ordering.LessTransitive | main.py:115 | The name order is transitive. |
| Ordering.LessTotal | main.py:115 | Any two different names are ordered one way or the other, so `sorted()` has exactly one answer. |
| Ordering.InsertSorted | main.py:219 | Inserting a new name into a strictly ascending list keeps it strictly ascending and adds exactly that name. |
| Ordering.SortedKeys | main.py:219 | `sorted()` of the names lists every name once, in strictly ascending order. |
| Ordering.SortedUnique | main.py:115 | Two strictly ascending lists with the same names are equal, so display and save use one and the same order. |
| Codec.SplitLines | main.py:176 | `readlines` yields non-empty lines that glue back to the text. A newline can only be the last character of a line, and every line but the last ends in one. |
| Codec.SplitConcat | main.py:176 | Splitting newline-terminated lines glued together gives the same lines back. |
| Codec.Split | main.py:177 | `split(":")` yields one more part than there are colons. No part holds a colon, and the parts joined with colons give the line. |
| Codec.SplitJoin | main.py:177 | Splitting parts free of the separator, joined by it, gives the parts back. |
| Codec.ParseLine | main.py:177-178 | A line unpacks iff it has exactly one colon. The name and the number then hold no colon. |
| Codec.ParseOneColon | main.py:177-178 | For a one-colon line, the name is the text before the colon and the number is the text after it less its last character. |
| Codec.Fill | main.py:174-179 | The load succeeds iff every line unpacks. A failure names the first line that does not. |
| Codec.FillKeys | main.py:174-179 | The keys of a loaded book are exactly the names of its lines. |
| Codec.FillValues | main.py:174-179 | Every loaded number is the number of some line with that name. |
| Codec.FillLastWins | main.py:174-179 | When a name appears on several lines, the last of them decides its number. |
| Codec.FillDict | main.py:174-179 | `fill_dict` succeeds iff every line has exactly one colon, and otherwise reports the first line that has not. |
| Codec.Load | main.py:186-187 | Reading a file succeeds iff every line has exactly one colon. Otherwise it reports the first line that has not. Loaded names and numbers hold no colon. |
| Codec.FillEntriesOf | main.py:174-179 | Loading the entries of a book, listed under all of its names in any order, rebuilds the book. |
| Codec.SplitEncode | main.py:218-221 | The lines written for a book without `:` or newlines read back one for one as its entries. |
| Codec.RoundTrip | main.py:218-221 | Writing such a book in any order that lists every name, then loading the text, gives back the book. |
| Codec.Save | main.py:218-221 | The save writes one `name:number` line per contact in strictly ascending name order. For a book without `:` or newlines the lines parse back to the entries in that order, and the text loads back to the same book. |
| Codec.Show | main.py:113-118 | The display has one `name: number` line per contact, in strictly ascending name order. |
| Codec.UnterminatedLastLine | main.py:176-178 | A file whose only line has no trailing newline loads with the last character of its number cut off. |
| Picker.TextFiles | main.py:126 | The filter keeps only names ending in `.txt`, keeps every such name, and invents none. |
| Picker.TextFilesAppend | main.py:126 | The filter keeps the listing order: filtering a concatenation is concatenating the filtered parts. |
| Picker.StripQuotes | main.py:126 | Stripping removes only quotes, at both ends, and leaves a contiguous slice that neither starts nor ends with a quote. |
| Picker.StripQuotesIdempotent | main.py:126 | Stripping a second time changes nothing. |
| Picker.Choose | main.py:130-146 | The picker raises iff no answer settles it. Otherwise the first settling answer decides and is the last one read: a non-number cancels, and a number `n` in `1..len(files)` picks `files[n-1]`. |
| Picker.NothingToPick | main.py:137-146 | With no `.txt` files nothing can be picked. |

## Left out

- Console I/O: `print_menu`, every `print`, the prompts' texts, and the menu dispatch loop of `main` (main.py:182-216). The operations are modelled one menu choice at a time.
- File-system access: `os.listdir`, `open`, reading and writing files (main.py:126, 159, 186, 218). The codec works on in-memory text, and the directory listing is a parameter of the picker.
- Re-display of the book before each delete prompt (main.py:105): it is output only.
- `int()` parsing in `choose_text_file`: each answer is given already parsed, `None` standing for text `int()` rejects.
- Python's Unicode `\d`: digits are ASCII `0`-`9` only.
- Text-mode newline translation when reading the file: Python reads `\r\n` and a lone `\r` as a line end, the model only `\n`. The round trip is therefore stated only for books whose names and numbers hold no `\r`. Such a book written by `main` would fail to load again.
- The unused `contact_book` parameter of `valid_number`.
- `copy_from_another_file` beyond its final insert (main.py:149-171). It needs the file picker and file access. Its loop compares the picker's result with `"cancel"` although the picker returns `None`, and it warns on the first pass unconditionally. It also checks conflicts only against the first name typed. `Store.Copy` models the insert for a single name, checked against both books.
- Retry by recursion: `create_contact` (main.py:41) and `delete_contact` (main.py:108) ask again by calling themselves, so after about a thousand refusals Python raises `RecursionError`. `Session.CreateContact` and `Session.DeleteContact` retry without limit.
- Picker.TextFiles: its contract speaks of membership only; the order is stated by `Picker.TextFilesAppend`.

=== FILE: codec.dfy ===
/** Reading a telephone-book file into a book (`fill_dict`) and writing it back sorted by name. */
module Codec {
  import opened Wrappers
  import opened Ordering
  import opened Store

  // ---------------------------------------------------------------------------
  // Lines: `file.readlines()`
  // ---------------------------------------------------------------------------

  /** The pieces a text is made of, glued back together. */
  function Concat(pieces: seq<string>): string
  {
    if |pieces| == 0 then "" else pieces[0] + Concat(pieces[1..])
  }

  /** A line as `readlines` returns it: non-empty, with a newline at most as its last character. */
  ghost predicate IsLine(l: string)
  {
    |l| > 0 && forall k :: 0 <= k < |l| - 1 ==> l[k] != '\n'
  }

  predicate Terminated(l: string)
  {
    |l| > 0 && l[|l| - 1] == '\n'
  }

  /** Length of the first line of a non-empty text: up to and including its first newline. */
  function LineEnd(s: string): (n: nat)
    requires |s| > 0
    ensures 0 < n <= |s|
    ensures forall k :: 0 <= k < n - 1 ==> s[k] != '\n'
    ensures n < |s| ==> s[n - 1] == '\n'
  {
    if s[0] == '\n' || |s| == 1 then 1 else 1 + LineEnd(s[1..])
  }

  /** `file.readlines()`: every line keeps its newline; a last line without one is kept as it is. */
  function SplitLines(text: string): (lines: seq<string>)
    ensures Concat(lines) == text
    ensures forall i :: 0 <= i < |lines| ==> IsLine(lines[i])
    ensures forall i :: 0 <= i < |lines| - 1 ==> Terminated(lines[i])
    decreases |text|
  {
    if |text| == 0 then []
    else
      var n := LineEnd(text);
      var rest := SplitLines(text[n..]);
      assert text == text[..n] + text[n..];
      [text[..n]] + rest
  }

  lemma LineEndOfLine(l: string, rest: string)
    requires IsLine(l) && Terminated(l)
    ensures LineEnd(l + rest) == |l|
  {
    var s := l + rest;
    assert s[|l| - 1] == '\n';
    assert forall k :: 0 <= k < |l| - 1 ==> s[k] != '\n';
  }

  /** Splitting newline-terminated lines that were glued together gives them back. */
  lemma {:induction false} SplitConcat(lines: seq<string>)
    requires forall i :: 0 <= i < |lines| ==> IsLine(lines[i]) && Terminated(lines[i])
    ensures SplitLines(Concat(lines)) == lines
  {
    if |lines| > 0 {
      var text := Concat(lines);
      LineEndOfLine(lines[0], Concat(lines[1..]));
      assert text[..|lines[0]|] == lines[0];
      assert text[|lines[0]|..] == Concat(lines[1..]);
      SplitConcat(lines[1..]);
      assert lines == [lines[0]] + lines[1..];
    }
  }

  // ---------------------------------------------------------------------------
  // One line: `name, number = line.split(":")` and `number[:-1]`
  // ---------------------------------------------------------------------------

  function Count(s: string, c: char): nat
  {
    if |s| == 0 then 0 else (if s[0] == c then 1 else 0) + Count(s[1..], c)
  }

  /** The parts joined back with the separator between them. */
  function Join(parts: seq<string>, sep: char): string
    requires |parts| > 0
  {
    if |parts| == 1 then parts[0] else parts[0] + [sep] + Join(parts[1..], sep)
  }

  /** `s.split(sep)` for a one-character separator: one more part than there are separators. */
  function Split(s: string, sep: char): (parts: seq<string>)
    ensures |parts| == Count(s, sep) + 1
    ensures forall i :: 0 <= i < |parts| ==> sep !in parts[i]
    ensures Join(parts, sep) == s
    decreases |s|
  {
    if |s| == 0 then [""]
    else
      var rest := Split(s[1..], sep);
      assert s == [s[0]] + s[1..];
      if s[0] == sep then [""] + rest
      else
        var parts := [[s[0]] + rest[0]] + rest[1..];
        assert parts[1..] == rest[1..];
        parts
  }

  /** Splitting undoes joining parts that are free of the separator. */
  lemma {:induction false} SplitJoin(parts: seq<string>, sep: char)
    requires |parts| > 0
    requires forall i :: 0 <= i < |parts| ==> sep !in parts[i]
    ensures Split(Join(parts, sep), sep) == parts
  {
    if |parts| == 1 {
      SplitFree(parts[0], sep);
    } else {
      SplitJoin(parts[1..], sep);
      SplitAfter(parts[0], sep, Join(parts[1..], sep));
      assert parts == [parts[0]] + parts[1..];
    }
  }

  lemma SplitFree(s: string, sep: char)
    requires sep !in s
    ensures Split(s, sep) == [s]
  {
  }

  lemma {:induction false} SplitAfter(a: string, sep: char, rest: string)
    requires sep !in a
    ensures Split(a + [sep] + rest, sep) == [a] + Split(rest, sep)
    decreases |a|
  {
    var s := a + [sep] + rest;
    if |a| == 0 {
      assert s[1..] == rest;
    } else {
      assert s[1..] == a[1..] + [sep] + rest;
      SplitAfter(a[1..], sep, rest);
      assert a == [a[0]] + a[1..];
    }
  }

  /** One contact line taken apart. */
  datatype Entry = Entry(name: string, number: string)

  /** `number[:-1]`: the last character dropped, whatever it is. */
  function DropLast(s: string): (r: string)
    ensures |s| > 0 ==> s == r + [s[|s| - 1]]
    ensures |s| == 0 ==> r == ""
  {
    if |s| == 0 then "" else s[..|s| - 1]
  }

  /**
   * `name, number = line.split(":")` followed by `number[:-1]`. The unpacking succeeds only
   * for exactly two parts, that is for a line with exactly one colon; `None` stands for the
   * `ValueError` it raises otherwise.
   */
  function ParseLine(line: string): (r: Option<Entry>)
    ensures r.Some? <==> Count(line, ':') == 1
    ensures r.Some? ==> ':' !in r.value.name && ':' !in r.value.number
  {
    var parts := Split(line, ':');
    if |parts| != 2 then None else Some(Entry(parts[0], DropLast(parts[1])))
  }

  // ---------------------------------------------------------------------------
  // The book: `fill_dict`
  // ---------------------------------------------------------------------------

  /** The unpacking of the given (0-based) line raised `ValueError`. */
  datatype LoadError = Malformed(line: nat)

  ghost predicate AllParsed(entries: seq<Option<Entry>>)
  {
    forall i :: 0 <= i < |entries| ==> entries[i].Some?
  }

  /** No later line carries the same name as line `i`. */
  ghost predicate LastOf(entries: seq<Option<Entry>>, i: int)
    requires AllParsed(entries) && 0 <= i < |entries|
  {
    forall j :: i < j < |entries| ==> entries[j].value.name != entries[i].value.name
  }

  /**
   * The loop of `fill_dict` over lines already taken apart: each entry is stored in turn, so a
   * later line for a name overwrites an earlier one, and the first unparsable line aborts.
   */
  function Fill(entries: seq<Option<Entry>>): (r: Result<Book, LoadError>)
    ensures r.Success? <==> AllParsed(entries)
    ensures r.Failure? ==> r.error.line < |entries| && entries[r.error.line].None?
    ensures r.Failure? ==> forall i :: 0 <= i < r.error.line ==> entries[i].Some?
    decreases |entries|
  {
    if |entries| == 0 then Success(map[])
    else
      var init := entries[..|entries| - 1];
      var last := entries[|entries| - 1];
      assert forall i :: 0 <= i < |init| ==> init[i] == entries[i];
      match Fill(init)
      case Failure(e) => Failure(e)
      case Success(b) =>
        if last.None? then Failure(Malformed(|entries| - 1))
        else Success(b[last.value.name := last.value.number])
  }

  /** A filled book has a key for every line's name and for nothing else. */
  lemma {:induction false} FillKeys(entries: seq<Option<Entry>>)
    requires AllParsed(entries)
    ensures Fill(entries).Success?
    ensures var b := Fill(entries).value;
      forall k :: k in b <==> exists i :: 0 <= i < |entries| && entries[i].value.name == k
    decreases |entries|
  {
    if |entries| > 0 {
      var init := entries[..|entries| - 1];
      var last := entries[|entries| - 1].value;
      assert forall i :: 0 <= i < |init| ==> init[i] == entries[i];
      FillKeys(init);
      var r := Fill(entries).value;
      assert r == Fill(init).value[last.name := last.number];
      forall k | (exists i :: 0 <= i < |entries| && entries[i].value.name == k)
        ensures k in r
      {
        var i :| 0 <= i < |entries| && entries[i].value.name == k;
        if i < |init| {
          assert init[i].value.name == k;
        } else {
          assert i == |entries| - 1;
        }
      }
    }
  }

  /** Every number in a filled book is the number of some line with that name. */
  lemma {:induction false} FillValues(entries: seq<Option<Entry>>)
    requires AllParsed(entries)
    ensures Fill(entries).Success?
    ensures var b := Fill(entries).value;
      forall k :: k in b ==>
        exists i :: 0 <= i < |entries| && entries[i].value.name == k && entries[i].value.number == b[k]
    decreases |entries|
  {
    if |entries| > 0 {
      var init := entries[..|entries| - 1];
      var last := entries[|entries| - 1].value;
      assert forall i :: 0 <= i < |init| ==> init[i] == entries[i];
      FillValues(init);
      var b := Fill(init).value;
      var r := Fill(entries).value;
      assert r == b[last.name := last.number];
      forall k | k in r
        ensures exists i :: 0 <= i < |entries| && entries[i].value.name == k && entries[i].value.number == r[k]
      {
        if k != last.name {
          var i :| 0 <= i < |init| && init[i].value.name == k && init[i].value.number == b[k];
          assert entries[i] == init[i];
        } else {
          assert entries[|entries| - 1].value.name == k;
        }
      }
    }
  }

  /** The last line for a name decides its number. */
  lemma {:induction false} FillLastWins(entries: seq<Option<Entry>>)
    requires AllParsed(entries)
    ensures Fill(entries).Success?
    ensures var b := Fill(entries).value;
      forall i :: 0 <= i < |entries| && LastOf(entries, i) ==>
        entries[i].value.name in b && b[entries[i].value.name] == entries[i].value.number
    decreases |entries|
  {
    if |entries| > 0 {
      var init := entries[..|entries| - 1];
      var last := entries[|entries| - 1].value;
      assert forall i :: 0 <= i < |init| ==> init[i] == entries[i];
      FillLastWins(init);
      var r := Fill(entries).value;
      assert r == Fill(init).value[last.name := last.number];
      forall i | 0 <= i < |entries| && LastOf(entries, i)
        ensures entries[i].value.name in r && r[entries[i].value.name] == entries[i].value.number
      {
        if i < |init| {
          assert LastOf(init, i);
          assert last.name != entries[i].value.name;
        } else {
          assert i == |entries| - 1;
        }
      }
    }
  }

  /** Every line of a file taken apart. */
  function ParseAll(lines: seq<string>): (entries: seq<Option<Entry>>)
  {
    seq(|lines|, i requires 0 <= i < |lines| => ParseLine(lines[i]))
  }

  /** `fill_dict`: the lines of a file parsed and stored in order. */
  function FillDict(lines: seq<string>): (r: Result<Book, LoadError>)
    ensures r.Success? <==> forall i :: 0 <= i < |lines| ==> Count(lines[i], ':') == 1
    ensures r.Failure? ==> r.error.line < |lines| && Count(lines[r.error.line], ':') != 1
    ensures r.Failure? ==> forall i :: 0 <= i < r.error.line ==> Count(lines[i], ':') == 1
  {
    var entries := ParseAll(lines);
    assert forall i :: 0 <= i < |lines| ==> entries[i] == ParseLine(lines[i]);
    Fill(entries)
  }

  /** Reading a whole file. */
  function Load(text: string): (r: Result<Book, LoadError>)
    ensures var lines := SplitLines(text);
      r.Success? <==> forall i :: 0 <= i < |lines| ==> Count(lines[i], ':') == 1
    ensures var lines := SplitLines(text);
      r.Failure? ==> r.error.line < |lines| && Count(lines[r.error.line], ':') != 1
    ensures var lines := SplitLines(text);
      r.Failure? ==> forall i :: 0 <= i < r.error.line ==> Count(lines[i], ':') == 1
    ensures r.Success? ==> forall k :: k in r.value ==> ':' !in k && ':' !in r.value[k]
  {
    var lines := SplitLines(text);
    if FillDict(lines).Success? then
      FilledFree(lines);
      FillDict(lines)
    else
      FillDict(lines)
  }

  /** Names and numbers loaded from lines that each hold one colon hold no colon themselves. */
  lemma FilledFree(lines: seq<string>)
    requires FillDict(lines).Success?
    ensures forall k :: k in FillDict(lines).value ==> ':' !in k && ':' !in FillDict(lines).value[k]
  {
    var entries := ParseAll(lines);
    assert FillDict(lines) == Fill(entries);
    FillKeys(entries);
    FillValues(entries);
    var b := Fill(entries).value;
    forall k | k in b
      ensures ':' !in k && ':' !in b[k]
    {
      var i :| 0 <= i < |entries| && entries[i].value.name == k && entries[i].value.number == b[k];
      assert entries[i] == ParseLine(lines[i]);
    }
  }

  // ---------------------------------------------------------------------------
  // Writing: the sorted save loop of `main`, and `show_contacts`
  // ---------------------------------------------------------------------------

  /** One saved entry: `f"{key}:{value}\n"`. */
  function Line(name: string, number: string): string
  {
    name + ":" + number + "\n"
  }

  /** The lines written for the entries named by `names`, in that order. */
  function LinesOf(b: Book, names: seq<string>): (lines: seq<string>)
    requires forall k :: k in names ==> k in b
  {
    seq(|names|, i requires 0 <= i < |names| => Line(names[i], b[names[i]]))
  }

  /** The file text written for the entries named by `names`, in that order. */
  function Encode(b: Book, names: seq<string>): string
    requires forall k :: k in names ==> k in b
  {
    Concat(LinesOf(b, names))
  }

  /**
   * No name or number holds the colon or the line end the file format relies on. A carriage
   * return counts as a line end too: Python's text mode reads a lone `\r` as one.
   */
  ghost predicate Clean(b: Book)
  {
    forall k :: k in b ==>
      && ':' !in k && '\n' !in k && '\r' !in k
      && ':' !in b[k] && '\n' !in b[k] && '\r' !in b[k]
  }

  /** A line with exactly one colon parses into the text around it, the number less its last character. */
  lemma ParseOneColon(name: string, rest: string)
    requires ':' !in name && ':' !in rest
    ensures ParseLine(name + ":" + rest) == Some(Entry(name, DropLast(rest)))
  {
    SplitJoin([name, rest], ':');
    assert Join([name, rest], ':') == name + ":" + rest;
  }

  lemma ParseWritten(name: string, number: string)
    requires ':' !in name && '\n' !in name && ':' !in number && '\n' !in number
    ensures IsLine(Line(name, number)) && Terminated(Line(name, number))
    ensures ParseLine(Line(name, number)) == Some(Entry(name, number))
  {
    assert Line(name, number) == name + ":" + (number + "\n");
    ParseOneColon(name, number + "\n");
    assert DropLast(number + "\n") == number;
  }

  /** The entries a book yields for the names listed, in that order. */
  function EntriesOf(b: Book, names: seq<string>): seq<Option<Entry>>
    requires forall k :: k in names ==> k in b
  {
    seq(|names|, i requires 0 <= i < |names| => Some(Entry(names[i], b[names[i]])))
  }

  /** The written lines of a clean book read back one for one. */
  lemma SplitEncode(b: Book, names: seq<string>)
    requires Clean(b) && forall k :: k in names ==> k in b
    ensures SplitLines(Encode(b, names)) == LinesOf(b, names)
    ensures ParseAll(LinesOf(b, names)) == EntriesOf(b, names)
  {
    var lines := LinesOf(b, names);
    forall i | 0 <= i < |names|
      ensures IsLine(lines[i]) && Terminated(lines[i])
      ensures ParseLine(lines[i]) == Some(Entry(names[i], b[names[i]]))
    {
      ParseWritten(names[i], b[names[i]]);
    }
    SplitConcat(lines);
  }

  /** Storing the entries of a book, listed under every one of its names, rebuilds the book. */
  lemma FillEntriesOf(b: Book, names: seq<string>)
    requires forall k :: k in names <==> k in b
    ensures Fill(EntriesOf(b, names)) == Success(b)
  {
    var entries := EntriesOf(b, names);
    FillKeys(entries);
    FillValues(entries);
    var r := Fill(entries).value;
    forall k
      ensures k in r <==> k in b
    {
      if k in b {
        var i :| 0 <= i < |names| && names[i] == k;
        assert entries[i].value.name == k;
      }
    }
    forall k | k in b
      ensures r[k] == b[k]
    {
      var i :| 0 <= i < |entries| && entries[i].value.name == k && entries[i].value.number == r[k];
      assert entries[i] == Some(Entry(names[i], b[names[i]]));
    }
    assert r == b;
  }

  /** Writing a clean book in any order that lists every name, then reading it back, gives the book. */
  lemma RoundTrip(b: Book, names: seq<string>)
    requires Clean(b)
    requires forall k :: k in names <==> k in b
    ensures Load(Encode(b, names)) == Success(b)
  {
    SplitEncode(b, names);
    FillEntriesOf(b, names);
  }

  /**
   * The save at the end of `main`: one `name:number` line per contact, in ascending name order.
   * A clean book reads back as itself.
   */
  method Save(b: Book) returns (names: seq<string>, text: string)
    ensures StrictlySorted(names) && |names| == |b|
    ensures forall k :: k in names <==> k in b
    ensures text == Encode(b, names)
    ensures Clean(b) ==> ParseAll(SplitLines(text)) == EntriesOf(b, names)
    ensures Clean(b) ==> Load(text) == Success(b)
  {
    names := SortedKeys(b.Keys);
    text := Encode(b, names);
    if Clean(b) {
      SplitEncode(b, names);
      RoundTrip(b, names);
    }
  }

  /** `show_contacts`: one `name: number` line per contact, in ascending name order. */
  method Show(b: Book) returns (names: seq<string>, display: seq<string>)
    ensures StrictlySorted(names) && |names| == |b|
    ensures forall k :: k in names <==> k in b
    ensures |display| == |names|
    ensures forall i :: 0 <= i < |display| ==> display[i] == names[i] + ": " + b[names[i]]
  {
    names := SortedKeys(b.Keys);
    display := seq(|names|, i requires 0 <= i < |names| => names[i] + ": " + b[names[i]]);
  }

  /** A text without a newline is read as a single line. */
  lemma SingleLine(text: string)
    requires |text| > 0 && '\n' !in text
    ensures SplitLines(text) == [text]
  {
    assert LineEnd(text) == |text|;
    assert text[..|text|] == text;
    assert SplitLines(text[|text|..]) == [];
  }

  /**
   * A file whose only line lacks its newline loads with the last character of the number cut
   * off: `number[:-1]` drops a digit instead of the line end.
   */
  lemma UnterminatedLastLine(name: string, number: string)
    requires ':' !in name && '\n' !in name && ':' !in number && '\n' !in number
    requires |number| > 0
    ensures Load(name + ":" + number) == Success(map[name := number[..|number| - 1]])
  {
    var text := name + ":" + number;
    assert '\n' !in text by {
      assert forall i :: 0 <= i < |text| ==> text[i] == ':' || text[i] in name || text[i] in number;
    }
    SingleLine(text);
    ParseOneColon(name, number);
    var entries := ParseAll([text]);
    assert entries == [Some(Entry(name, number[..|number| - 1]))];
    assert entries[..0] == [];
    assert Fill(entries[..0]) == Success(map[]);
    assert Load(text) == Fill(entries);
  }
}

=== FILE: ordering.dfy ===
/** Python's ordering of `str` values and the sorted enumeration of a set of names. */
module Ordering {

  /** `a < b` on Python strings: lexicographic by code point, a proper prefix being smaller. */
  predicate Less(a: string, b: string)
    decreases |a|
  {
    if |a| == 0 then |b| > 0
    else if |b| == 0 then false
    else if a[0] != b[0] then a[0] < b[0]
    else Less(a[1..], b[1..])
  }

  /**
   * Python's comparison rule: after a common prefix of length `i`, the first differing code point
   * decides; when one string runs out first, the shorter one is smaller.
   */
  lemma {:induction false} LessByFirstDifference(a: string, b: string, i: nat)
    requires i <= |a| && i <= |b|
    requires forall k :: 0 <= k < i ==> a[k] == b[k]
    ensures i < |a| && i < |b| && a[i] != b[i] ==> (Less(a, b) <==> a[i] < b[i])
    ensures i == |a| || i == |b| ==> (Less(a, b) <==> |a| < |b|)
    decreases i
  {
    if i > 0 {
      assert a[0] == b[0];
      assert forall k :: 0 <= k < i - 1 ==> a[1..][k] == a[k + 1] && b[1..][k] == b[k + 1];
      LessByFirstDifference(a[1..], b[1..], i - 1);
    }
  }

  lemma {:induction false} LessIrreflexive(a: string)
    ensures !Less(a, a)
  {
    if |a| > 0 {
      LessIrreflexive(a[1..]);
    }
  }

  lemma {:induction false} LessTransitive(a: string, b: string, c: string)
    requires Less(a, b) && Less(b, c)
    ensures Less(a, c)
  {
    if |a| > 0 && |b| > 0 && |c| > 0 && a[0] == b[0] && b[0] == c[0] {
      LessTransitive(a[1..], b[1..], c[1..]);
    }
  }

  lemma {:induction false} LessTotal(a: string, b: string)
    ensures a == b || Less(a, b) || Less(b, a)
  {
    if |a| > 0 && |b| > 0 && a[0] == b[0] {
      LessTotal(a[1..], b[1..]);
      if a[1..] == b[1..] {
        assert a == [a[0]] + a[1..] && b == [b[0]] + b[1..];
      }
    }
  }

  lemma LessAsymmetric(a: string, b: string)
    requires Less(a, b)
    ensures !Less(b, a)
  {
  }

  /** Every element is smaller than every later one (so there are no duplicates). */
  ghost predicate StrictlySorted(s: seq<string>)
  {
    forall i, j :: 0 <= i < j < |s| ==> Less(s[i], s[j])
  }

  /** Inserts a name that is not yet present into a strictly sorted sequence. */
  function InsertSorted(s: seq<string>, x: string): (r: seq<string>)
    requires StrictlySorted(s) && x !in s
    ensures StrictlySorted(r)
    ensures forall y :: y in r <==> y in s || y == x
    ensures |r| == |s| + 1
  {
    if |s| == 0 then [x]
    else if Less(x, s[0]) then
      assert forall j :: 0 < j < |s| ==> Less(x, s[j]) by {
        forall j | 0 < j < |s| {
          LessTransitive(x, s[0], s[j]);
        }
      }
      [x] + s
    else
      LessTotal(x, s[0]);
      var tail := InsertSorted(s[1..], x);
      assert forall y :: y in tail ==> Less(s[0], y);
      [s[0]] + tail
  }

  /** The names of `keys` in ascending order, as `sorted()` produces them. */
  method SortedKeys(keys: set<string>) returns (r: seq<string>)
    ensures StrictlySorted(r)
    ensures forall k :: k in r <==> k in keys
    ensures |r| == |keys|
  {
    r := [];
    var todo := keys;
    while todo != {}
      invariant StrictlySorted(r)
      invariant todo <= keys
      invariant forall k :: k in r <==> k in keys && k !in todo
      invariant |r| + |todo| == |keys|
      decreases |todo|
    {
      var k :| k in todo;
      r := InsertSorted(r, k);
      todo := todo - {k};
    }
  }

  /** A strictly sorted enumeration of a set is unique: the sort order leaves no choice. */
  lemma {:induction false} SortedUnique(a: seq<string>, b: seq<string>)
    requires StrictlySorted(a) && StrictlySorted(b)
    requires |a| == |b| && forall k :: k in a <==> k in b
    ensures a == b
  {
    if |a| > 0 {
      if a[0] != b[0] {
        assert a[0] in b && b[0] in a;
        var i :| 0 <= i < |a| && a[i] == b[0];
        var j :| 0 <= j < |b| && b[j] == a[0];
        assert i > 0 && j > 0;
        assert Less(a[0], a[i]) && Less(b[0], b[j]);
        LessAsymmetric(a[0], b[0]);
      }
      forall k
        ensures k in a[1..] <==> k in b[1..]
      {
        if k in a[1..] {
          var i :| 1 <= i < |a| && a[i] == k;
          assert Less(a[0], k);
          if k == b[0] {
            LessIrreflexive(k);
          }
          assert k in b;
        }
        if k in b[1..] {
          var j :| 1 <= j < |b| && b[j] == k;
          assert Less(b[0], k);
          if k == a[0] {
            LessIrreflexive(k);
          }
          assert k in a;
        }
      }
      SortedUnique(a[1..], b[1..]);
      assert a == [a[0]] + a[1..] && b == [b[0]] + b[1..];
    }
  }
}

=== FILE: picker.dfy ===
/** `choose_text_file`: the `.txt` files of a directory and the 1-based choice among them. */
module Picker {
  import opened Wrappers

  predicate EndsWith(s: string, suffix: string)
  {
    |suffix| <= |s| && s[|s| - |suffix|..] == suffix
  }

  /** The names `file.endswith(".txt")` keeps, in listing order. */
  function TextFiles(names: seq<string>): (files: seq<string>)
    ensures |files| <= |names|
    ensures forall f :: f in files ==> f in names && EndsWith(f, ".txt")
    ensures forall f :: f in names && EndsWith(f, ".txt") ==> f in files
  {
    if |names| == 0 then []
    else if EndsWith(names[0], ".txt") then [names[0]] + TextFiles(names[1..])
    else TextFiles(names[1..])
  }

  /** Filtering keeps the listing order: the filter of a concatenation is the concatenation of the filters. */
  lemma {:induction false} TextFilesAppend(a: seq<string>, b: seq<string>)
    ensures TextFiles(a + b) == TextFiles(a) + TextFiles(b)
  {
    if |a| > 0 {
      assert (a + b)[1..] == a[1..] + b;
      TextFilesAppend(a[1..], b);
    } else {
      assert a + b == b;
    }
  }

  /** How many quotes `s` starts with. */
  function LeadingQuotes(s: string): (n: nat)
    ensures n <= |s|
    ensures forall k :: 0 <= k < n ==> s[k] == '"'
    ensures n == |s| || s[n] != '"'
  {
    if |s| > 0 && s[0] == '"' then 1 + LeadingQuotes(s[1..]) else 0
  }

  /** How many quotes `s` ends with. */
  function TrailingQuotes(s: string): (n: nat)
    ensures n <= |s|
    ensures forall k :: |s| - n <= k < |s| ==> s[k] == '"'
    ensures n == |s| || s[|s| - n - 1] != '"'
  {
    if |s| > 0 && s[|s| - 1] == '"' then 1 + TrailingQuotes(s[..|s| - 1]) else 0
  }

  /**
   * `dir_path.strip("\"")`: the path with every surrounding quote removed. The result is the
   * slice that starts after the leading quotes and has only quotes after it.
   */
  function StripQuotes(path: string): (r: string)
    ensures |r| <= |path| - LeadingQuotes(path)
    ensures r == path[LeadingQuotes(path)..LeadingQuotes(path) + |r|]
    ensures forall k :: LeadingQuotes(path) + |r| <= k < |path| ==> path[k] == '"'
    ensures |r| == 0 || (r[0] != '"' && r[|r| - 1] != '"')
  {
    var i := LeadingQuotes(path);
    var rest := path[i..];
    var t := TrailingQuotes(rest);
    assert forall k :: 0 <= k < |rest| ==> rest[k] == path[i + k];
    rest[..|rest| - t]
  }

  /** Stripping quotes a second time changes nothing. */
  lemma StripQuotesIdempotent(path: string)
    ensures StripQuotes(StripQuotes(path)) == StripQuotes(path)
  {
  }

  /** The file the user picked, with the 1-based number typed for it. */
  datatype Chosen = Chosen(number: int, name: string)

  /** An answer ends the picker: a non-number cancels it, a number in `1..|files|` picks a file. */
  predicate Settles(files: seq<string>, answer: Option<int>)
  {
    answer.None? || 1 <= answer.value <= |files|
  }

  /** Answer `i` is the first one that ends the picker, and `r` is how it ends. */
  ghost predicate FirstSettling(files: seq<string>, answers: seq<Option<int>>, i: int, r: Reply<Chosen>)
  {
    && 0 <= i < |answers|
    && Settles(files, answers[i])
    && (forall j :: 0 <= j < i ==> !Settles(files, answers[j]))
    && r == (if answers[i].None? then Cancelled(i + 1)
             else Got(Chosen(answers[i].value, files[answers[i].value - 1]), i + 1))
  }

  /**
   * `choose_text_file` over the answers the user types, each already passed through `int()`:
   * `None` for text `int()` rejects. A number outside `1..len(files)` asks again; running out of
   * answers raises, as `input()` does at the end of input.
   */
  function Choose(files: seq<string>, answers: seq<Option<int>>): (r: Reply<Chosen>)
    ensures Consumes(answers, r)
    ensures r.Raised? <==> forall i :: 0 <= i < |answers| ==> !Settles(files, answers[i])
    ensures !r.Raised? ==> FirstSettling(files, answers, r.used - 1, r)
    ensures r.Got? ==> 1 <= r.value.number <= |files| && r.value.name == files[r.value.number - 1]
    decreases |answers|
  {
    if |answers| == 0 then Raised
    else if answers[0].None? then Cancelled(1)
    else if 1 <= answers[0].value <= |files| then
      Got(Chosen(answers[0].value, files[answers[0].value - 1]), 1)
    else
      var r := Choose(files, answers[1..]);
      assert forall i :: 1 <= i < |answers| ==> answers[i] == answers[1..][i - 1];
      After(1, r)
  }

  /** With no text files in the directory nothing can be picked. */
  lemma NothingToPick(answers: seq<Option<int>>)
    ensures !Choose([], answers).Got?
  {
  }
}

=== FILE: session.dfy ===
/**
 * The interactive steps of main.py, each a function of the lines the user types. A step reads
 * lines from the front of the list and reports how many it used; running out of lines is
 * `Raised`, as `input()` raises at the end of input.
 */
module Session {
  import opened Wrappers
  import opened Validator
  import opened Store

  /** The token that aborts a prompt. */
  const Cancel: string := "cancel"

  /**
   * A re-prompt loop: the first line typed that `accept` takes is the answer. When the prompt is
   * `cancellable`, typing `cancel` at a repeated prompt (never at the first one) aborts it.
   */
  function Prompt(inputs: seq<string>, accept: string -> bool, cancellable: bool, retrying: bool): (r: Reply<string>)
    ensures Consumes(inputs, r)
    ensures r.Got? ==> accept(r.value) && r.value == inputs[r.used - 1]
    ensures r.Cancelled? ==> cancellable && inputs[r.used - 1] == Cancel && (retrying || r.used > 1)
    ensures r.Got? && cancellable && (retrying || r.used > 1) ==> r.value != Cancel
    ensures forall i :: 0 <= i < Skipped(inputs, r) ==>
              !accept(inputs[i]) && (cancellable && (retrying || i > 0) ==> inputs[i] != Cancel)
    decreases |inputs|
  {
    if |inputs| == 0 then Raised
    else if cancellable && retrying && inputs[0] == Cancel then Cancelled(1)
    else if accept(inputs[0]) then Got(inputs[0], 1)
    else
      var r := Prompt(inputs[1..], accept, cancellable, true);
      assert forall i :: 1 <= i < |inputs| ==> inputs[1..][i - 1] == inputs[i];
      After(1, r)
  }

  /** The number prompt of `create_contact` and `change_contact`: only a valid number is taken. */
  function ReadNumber(inputs: seq<string>): (r: Reply<string>)
    ensures Consumes(inputs, r)
    ensures r.Got? ==> IsValid(r.value) && r.value == inputs[r.used - 1]
    ensures r.Cancelled? ==> r.used >= 2 && inputs[r.used - 1] == Cancel
    ensures forall i :: 0 <= i < Skipped(inputs, r) ==> !IsValid(inputs[i]) && (i > 0 ==> inputs[i] != Cancel)
  {
    Prompt(inputs, IsValid, true, false)
  }

  /** `cancel` at the first number prompt is just an invalid number: the prompt asks again. */
  lemma FirstCancelAsksAgain(number: string, rest: seq<string>)
    requires IsValid(number)
    ensures ReadNumber([Cancel, number] + rest) == Got(number, 2)
  {
    CancelIsInvalid();
    var inputs := [Cancel, number] + rest;
    assert inputs[1..] == [number] + rest;
    assert Prompt(inputs[1..], IsValid, true, true) == Got(number, 1);
  }

  /** `get_name`: the name of an existing contact; `cancel` at a repeated prompt aborts. */
  function GetName(b: Book, inputs: seq<string>): (r: Reply<string>)
    ensures Consumes(inputs, r)
    ensures r.Got? ==> Exists(b, r.value) && r.value == inputs[r.used - 1]
    ensures r.Got? && r.used > 1 ==> r.value != Cancel
    ensures r.Cancelled? ==> r.used >= 2 && inputs[r.used - 1] == Cancel
    ensures forall i :: 0 <= i < Skipped(inputs, r) ==> !Exists(b, inputs[i]) && (i > 0 ==> inputs[i] != Cancel)
  {
    Prompt(inputs, n => Exists(b, n), true, false)
  }

  /** The new-name prompt of the rename branch: asks until the name is free; it cannot be cancelled. */
  function FreshName(b: Book, inputs: seq<string>): (r: Reply<string>)
    ensures Consumes(inputs, r)
    ensures !r.Cancelled?
    ensures r.Got? ==> !Exists(b, r.value) && r.value == inputs[r.used - 1]
    ensures forall i :: 0 <= i < Skipped(inputs, r) ==> Exists(b, inputs[i])
  {
    Prompt(inputs, n => !Exists(b, n), false, false)
  }

  /** `b'` is `b` with one contact added under a name that did not exist, with a valid number. */
  ghost predicate Created(b: Book, b': Book, name: string)
  {
    && !Exists(b, name) && name != Cancel
    && name in b' && IsValid(b'[name])
    && b'.Keys == b.Keys + {name} && SameOutside(b, b', {name})
  }

  /**
   * `create_contact`: `cancel` as the name aborts; the number is asked until it is valid; a name
   * that already exists starts the whole step again from the name prompt.
   */
  function CreateContact(b: Book, inputs: seq<string>): (r: Reply<Book>)
    ensures Consumes(inputs, r)
    ensures |inputs| > 0 && inputs[0] == Cancel ==> r == Cancelled(1)
    ensures r.Cancelled? ==> inputs[r.used - 1] == Cancel
    ensures r.Got? ==> exists name :: Created(b, r.value, name)
    ensures r.Got? ==> forall k :: Exists(b, k) ==> k in r.value && r.value[k] == b[k]
    ensures |inputs| > 0 && inputs[0] != Cancel && !Exists(b, inputs[0]) && ReadNumber(inputs[1..]).Got? ==>
      r == Got(b[inputs[0] := ReadNumber(inputs[1..]).value], 1 + ReadNumber(inputs[1..]).used)
    decreases |inputs|
  {
    if |inputs| == 0 then Raised
    else if inputs[0] == Cancel then Cancelled(1)
    else
      var name := inputs[0];
      match ReadNumber(inputs[1..])
      case Raised => Raised
      case Cancelled(u) => Cancelled(1 + u)
      case Got(number, u) =>
        match Add(b, name, number)
        case Success(b') =>
          assert Created(b, b', name);
          Got(b', 1 + u)
        case Failure(_) => After(1 + u, CreateContact(b, inputs[1 + u..]))
  }

  /**
   * A name that already exists, once a valid number has been typed for it, starts the step
   * again from the name prompt on the lines that follow.
   */
  lemma CreateContactRetries(b: Book, inputs: seq<string>)
    requires |inputs| > 0 && inputs[0] != Cancel && Exists(b, inputs[0]) && ReadNumber(inputs[1..]).Got?
    ensures var u := 1 + ReadNumber(inputs[1..]).used;
      u <= |inputs| && CreateContact(b, inputs) == After(u, CreateContact(b, inputs[u..]))
  {
  }

  /** The completed create `r` stored the name typed at line `k` under the last number it read. */
  ghost predicate CreatedAt(b: Book, inputs: seq<string>, r: Reply<Book>, k: int)
  {
    && r.Got? && 0 <= k < r.used - 1 && r.used <= |inputs|
    && Created(b, r.value, inputs[k]) && r.value[inputs[k]] == inputs[r.used - 1]
  }

  /** A create that ran on the lines after the first `off` still stored a line the user typed. */
  lemma CreatedAtShift(b: Book, inputs: seq<string>, off: nat, r: Reply<Book>, k: int)
    requires off <= |inputs| && CreatedAt(b, inputs[off..], r, k)
    ensures CreatedAt(b, inputs, After(off, r), off + k)
  {
    var rest := inputs[off..];
    assert rest[k] == inputs[off + k] && rest[r.used - 1] == inputs[off + r.used - 1];
  }

  /**
   * A completed create stores a name the user typed, and the number is the last line it read:
   * the valid number taken in the round whose name was free.
   */
  lemma {:induction false} CreateContactTyped(b: Book, inputs: seq<string>)
    ensures CreateContact(b, inputs).Got? ==> exists k :: CreatedAt(b, inputs, CreateContact(b, inputs), k)
    decreases |inputs|
  {
    var r := CreateContact(b, inputs);
    if |inputs| > 0 && inputs[0] != Cancel && r.Got? {
      var n := ReadNumber(inputs[1..]);
      assert n.Got?;
      var u := n.used;
      if Add(b, inputs[0], n.value).Success? {
        assert r == Got(Add(b, inputs[0], n.value).value, 1 + u);
        assert inputs[1..][u - 1] == inputs[r.used - 1];
        assert CreatedAt(b, inputs, r, 0);
      } else {
        var rest := inputs[1 + u..];
        var r' := CreateContact(b, rest);
        assert r == After(1 + u, r');
        CreateContactTyped(b, rest);
        var k :| CreatedAt(b, rest, r', k);
        CreatedAtShift(b, inputs, 1 + u, r', k);
      }
    }
  }

  /** `b'` is `b` with the contact `oldName` moved to the free name `newName`. */
  ghost predicate Renamed(b: Book, b': Book, oldName: string, newName: string)
  {
    && Exists(b, oldName) && oldName != "" && !Exists(b, newName)
    && oldName !in b' && newName in b' && b'[newName] == b[oldName]
    && SameOutside(b, b', {oldName, newName})
  }

  /** `b'` is `b` with the number of the existing contact `name` replaced by a valid one. */
  ghost predicate Renumbered(b: Book, b': Book, name: string)
  {
    && Exists(b, name) && name != ""
    && name in b' && IsValid(b'[name])
    && b'.Keys == b.Keys && SameOutside(b, b', {name})
  }

  /**
   * The `name` branch of `change_contact`: an existing contact is moved to a free name. A name
   * of `""` from `get_name` (its cancel signal) aborts.
   */
  function ChangeName(b: Book, inputs: seq<string>): (r: Reply<Book>)
    ensures Consumes(inputs, r)
    ensures r.Got? ==> exists o, n :: Renamed(b, r.value, o, n)
    ensures r.Got? ==>
      var g := GetName(b, inputs);
      g.Got? && 0 < g.used < r.used && Renamed(b, r.value, g.value, inputs[r.used - 1])
    ensures var g := GetName(b, inputs);
      g.Got? && g.value != "" && FreshName(b, inputs[g.used..]).Got? ==> r.Got?
  {
    match GetName(b, inputs)
    case Raised => Raised
    case Cancelled(u) => Cancelled(u)
    case Got(oldName, u) =>
      if oldName == "" then Cancelled(u)
      else
        match FreshName(b, inputs[u..])
        case Got(newName, v) =>
          var b' := Rename(b, oldName, newName).value;
          assert Renamed(b, b', oldName, newName);
          Got(b', u + v)
        case _ => Raised  // the new-name prompt cannot be cancelled, so it raised
  }

  /** The `number` branch of `change_contact`: an existing contact gets a new valid number. */
  function ChangeNumber(b: Book, inputs: seq<string>): (r: Reply<Book>)
    ensures Consumes(inputs, r)
    ensures r.Got? ==> exists n :: Renumbered(b, r.value, n)
    ensures r.Got? ==>
      var g := GetName(b, inputs);
      g.Got? && 0 < g.used < r.used && Renumbered(b, r.value, g.value) && r.value[g.value] == inputs[r.used - 1]
    ensures var g := GetName(b, inputs);
      g.Got? && g.value != "" && ReadNumber(inputs[g.used..]).Got? ==> r.Got?
  {
    match GetName(b, inputs)
    case Raised => Raised
    case Cancelled(u) => Cancelled(u)
    case Got(name, u) =>
      if name == "" then Cancelled(u)
      else
        match ReadNumber(inputs[u..])
        case Raised => Raised
        case Cancelled(v) => Cancelled(u + v)
        case Got(number, v) =>
          var b' := SetNumber(b, name, number).value;
          assert Renumbered(b, b', name);
          Got(b', u + v)
  }

  /**
   * `change_contact`: `name` renames, `number` renumbers, `cancel` aborts. Any other answer
   * calls `change_contact()` without its argument, which raises `TypeError`.
   */
  function ChangeContact(b: Book, inputs: seq<string>): (r: Reply<Book>)
    ensures Consumes(inputs, r)
    ensures r.Got? ==> inputs[0] == "name" || inputs[0] == "number"
    ensures r.Got? && inputs[0] == "name" ==> exists o, n :: Renamed(b, r.value, o, n)
    ensures r.Got? && inputs[0] == "number" ==> exists n :: Renumbered(b, r.value, n)
    ensures |inputs| > 0 && inputs[0] == Cancel ==> r == Cancelled(1)
    ensures |inputs| > 0 && inputs[0] != "name" && inputs[0] != "number" && inputs[0] != Cancel ==> r.Raised?
  {
    if |inputs| == 0 then Raised
    else if inputs[0] == "name" then After(1, ChangeName(b, inputs[1..]))
    else if inputs[0] == "number" then After(1, ChangeNumber(b, inputs[1..]))
    else if inputs[0] == Cancel then Cancelled(1)
    else Raised
  }

  /**
   * The answer `name` leads to the rename: a completed change moves the contact `get_name`
   * returned to the last name typed, and the change completes once a free name follows.
   */
  lemma ChangeContactRenames(b: Book, inputs: seq<string>)
    requires |inputs| > 0 && inputs[0] == "name"
    ensures var r, g := ChangeContact(b, inputs), GetName(b, inputs[1..]);
      r.Got? ==> g.Got? && Renamed(b, r.value, g.value, inputs[r.used - 1])
    ensures var r, g := ChangeContact(b, inputs), GetName(b, inputs[1..]);
      g.Got? && g.value != "" && FreshName(b, inputs[1 + g.used..]).Got? ==> r.Got?
  {
    var c := ChangeName(b, inputs[1..]);
    assert c.Got? ==> inputs[1..][c.used - 1] == inputs[c.used];
  }

  /**
   * The answer `number` leads to the renumbering: a completed change gives the contact
   * `get_name` returned the last line typed, and it completes once a valid number follows.
   */
  lemma ChangeContactRenumbers(b: Book, inputs: seq<string>)
    requires |inputs| > 0 && inputs[0] == "number"
    ensures var r, g := ChangeContact(b, inputs), GetName(b, inputs[1..]);
      r.Got? ==> g.Got? && Renumbered(b, r.value, g.value) && r.value[g.value] == inputs[r.used - 1]
    ensures var r, g := ChangeContact(b, inputs), GetName(b, inputs[1..]);
      g.Got? && g.value != "" && ReadNumber(inputs[1 + g.used..]).Got? ==> r.Got?
  {
    var c := ChangeNumber(b, inputs[1..]);
    assert c.Got? ==> inputs[1..][c.used - 1] == inputs[c.used];
  }

  /** `b'` is `b` without the existing contact `name`, and nothing else changed. */
  ghost predicate Deleted(b: Book, b': Book, name: string)
  {
    && Exists(b, name) && name !in b'
    && b'.Keys == b.Keys - {name} && SameOutside(b, b', {name})
  }

  /**
   * `delete_contact` called from the menu: asks until a name whose lookup is non-empty is typed,
   * then deletes exactly that contact.
   */
  function DeleteContact(b: Book, inputs: seq<string>): (r: Reply<Book>)
    ensures Consumes(inputs, r)
    ensures !r.Cancelled?
    ensures r.Got? ==> exists name :: Deleted(b, r.value, name)
    ensures r.Got? ==> Deleted(b, r.value, inputs[r.used - 1])
    ensures r.Raised? <==> forall i :: 0 <= i < |inputs| ==> !Exists(b, inputs[i])
    ensures forall i :: 0 <= i < Skipped(inputs, r) ==> !Exists(b, inputs[i])
  {
    match Prompt(inputs, n => Truthy(Get(b, n, Int(0))), false, false)
    case Raised => Raised
    case Cancelled(u) => Cancelled(u)
    case Got(name, u) =>
      var b' := Remove(b, name).value;
      assert Deleted(b, b', name);
      Got(b', u)
  }
}

=== FILE: store.dfy ===
/** The in-memory contact book of main.py and the mutations the session performs on it. */
module Store {
  import opened Wrappers

  /** A contact book: name to telephone number. */
  type Book = map<string, string>

  /** Why a store operation refuses. */
  datatype StoreError = NameTaken | NoSuchContact

  /** The values `dict.get` can hand back in this program: a stored number or an integer default. */
  datatype PyValue = Str(s: string) | Int(i: int)

  /** Python truthiness: an empty string and zero are false. */
  predicate Truthy(v: PyValue)
  {
    match v
    case Str(s) => |s| > 0
    case Int(i) => i != 0
  }

  /** `dict.get(name, default)`. */
  function Get(b: Book, name: string, default: PyValue): PyValue
  {
    if name in b then Str(b[name]) else default
  }

  /** `contact_exists`: `bool(contact_book.get(name, 0))`, so a name stored with an empty number counts as absent. */
  function Exists(b: Book, name: string): (r: bool)
    ensures r <==> name in b && b[name] != ""
  {
    Truthy(Get(b, name, Int(0)))
  }

  /** `b` and `b'` hold the same entries for every name outside `names`. */
  ghost predicate SameOutside(b: Book, b': Book, names: set<string>)
  {
    forall k :: k !in names ==> (k in b <==> k in b') && (k in b ==> b'[k] == b[k])
  }

  /** The insert step of `create_contact`: store the number unless the name already exists. */
  function Add(b: Book, name: string, number: string): (r: Result<Book, StoreError>)
    ensures r.Failure? <==> Exists(b, name)
    ensures r.Failure? ==> r.error == NameTaken
    ensures r.Success? ==> name in r.value && r.value[name] == number
    ensures r.Success? ==> r.value.Keys == b.Keys + {name} && SameOutside(b, r.value, {name})
    ensures r.Success? && number != "" ==> Exists(r.value, name)
  {
    if Exists(b, name) then Failure(NameTaken) else Success(b[name := number])
  }

  /** `del contact_book[name]`: raises `KeyError` for a name that is not a key at all. */
  function Remove(b: Book, name: string): (r: Result<Book, StoreError>)
    ensures r.Failure? <==> name !in b
    ensures r.Failure? ==> r.error == NoSuchContact
    ensures r.Success? ==> name !in r.value && !Exists(r.value, name)
    ensures r.Success? ==> r.value.Keys == b.Keys - {name} && SameOutside(b, r.value, {name})
    ensures r.Success? ==> |r.value| == |b| - 1
  {
    if name !in b then Failure(NoSuchContact) else Success(b - {name})
  }

  /**
   * The rename branch of `change_contact`: the old name must exist and the new one must not;
   * the number is copied to the new name and the old key is deleted. A new name stored with an
   * empty number counts as free, so renaming onto it drops that entry and shrinks the book.
   */
  function Rename(b: Book, oldName: string, newName: string): (r: Result<Book, StoreError>)
    ensures r.Failure? <==> !Exists(b, oldName) || Exists(b, newName)
    ensures r.Failure? ==> (r.error == NoSuchContact <==> !Exists(b, oldName))
    ensures r.Success? ==> oldName != newName && oldName !in r.value
    ensures r.Success? ==> newName in r.value && r.value[newName] == b[oldName] && Exists(r.value, newName)
    ensures r.Success? ==> r.value.Keys == b.Keys - {oldName} + {newName} && SameOutside(b, r.value, {oldName, newName})
    ensures r.Success? && newName !in b ==> |r.value| == |b|
    ensures r.Success? && newName in b ==> |r.value| == |b| - 1
  {
    if !Exists(b, oldName) then Failure(NoSuchContact)
    else if Exists(b, newName) then Failure(NameTaken)
    else
      var copied := b[newName := b[oldName]];
      assert copied.Keys == b.Keys + {newName};
      var r := Remove(copied, oldName).value;
      assert r.Keys == b.Keys - {oldName} + {newName};
      Success(r)
  }

  /** The number branch of `change_contact`: overwrite the number of an existing contact. */
  function SetNumber(b: Book, name: string, number: string): (r: Result<Book, StoreError>)
    ensures r.Failure? <==> !Exists(b, name)
    ensures r.Failure? ==> r.error == NoSuchContact
    ensures r.Success? ==> name in r.value && r.value[name] == number
    ensures r.Success? ==> r.value.Keys == b.Keys && SameOutside(b, r.value, {name})
  {
    if !Exists(b, name) then Failure(NoSuchContact) else Success(b[name := number])
  }

  /** What `find_contact` prints when the name is not a key. */
  const NotFound: string := "No such contact. Use '5. Show contacts'"

  /** `find_contact`: the stored number, even an empty one, or the not-found message. */
  function Find(b: Book, name: string): (r: string)
    ensures name in b ==> r == b[name]
    ensures name !in b ==> r == NotFound
  {
    match Get(b, name, Str(NotFound))
    case Str(s) => s
    case Int(_) => NotFound
  }

  /**
   * The final step of `copy_from_another_file` for one name: refuse a name that exists in the
   * original book, otherwise take the entry from the other book, where it must exist.
   */
  function Copy(original: Book, other: Book, name: string): (r: Result<Book, StoreError>)
    ensures r.Failure? <==> Exists(original, name) || !Exists(other, name)
    ensures r.Failure? ==> (r.error == NameTaken <==> Exists(original, name))
    ensures r.Success? ==> name in r.value && r.value[name] == other[name]
    ensures r.Success? ==> r.value.Keys == original.Keys + {name} && SameOutside(original, r.value, {name})
  {
    if Exists(original, name) then Failure(NameTaken)
    else if !Exists(other, name) then Failure(NoSuchContact)
    else Success(original[name := other[name]])
  }

  /** Adding and then removing a fresh name gives back the book it started from. */
  lemma AddThenRemove(b: Book, name: string, number: string)
    requires name !in b
    ensures Add(b, name, number).Success?
    ensures Remove(Add(b, name, number).value, name) == Success(b)
  {
    assert Remove(Add(b, name, number).value, name).value == b;
  }

  /** Renaming and renaming back restores the book when the new name was not a key. */
  lemma RenameBack(b: Book, oldName: string, newName: string)
    requires Exists(b, oldName) && newName !in b
    ensures Rename(b, oldName, newName).Success?
    ensures Rename(Rename(b, oldName, newName).value, newName, oldName) == Success(b)
  {
    var b' := Rename(b, oldName, newName).value;
    var b'' := Rename(b', newName, oldName).value;
    assert b'' == b;
  }
}

=== FILE: validator.dfy ===
/** The phone-number check `valid_number` of main.py: one Russian mobile layout, matched in full. */
module Validator {

  /** `\d`, restricted to ASCII digits. */
  predicate IsDigit(c: char)
  {
    '0' <= c <= '9'
  }

  predicate AllDigits(s: string)
  {
    forall i :: 0 <= i < |s| ==> IsDigit(s[i])
  }

  /** The grouped subscriber part `(ddd)ddd-dd-dd`, read position by position. */
  predicate GroupedBody(s: string)
  {
    && |s| == 14
    && s[0] == '(' && AllDigits(s[1..4]) && s[4] == ')'
    && AllDigits(s[5..8]) && s[8] == '-'
    && AllDigits(s[9..11]) && s[11] == '-'
    && AllDigits(s[12..14])
  }

  /** The bare subscriber part: exactly ten digits. */
  predicate BareBody(s: string)
  {
    |s| == 10 && AllDigits(s)
  }

  /**
   * `valid_number`: true when the number is REJECTED. A number is accepted when it is the
   * prefix `8` or `+7` followed by a grouped or a bare subscriber part, and nothing else.
   * The unused `contact_book` argument of `valid_number` is dropped.
   */
  function IsInvalid(number: string): (invalid: bool)
    ensures !invalid ==> |number| in {11, 12, 15, 16}
    ensures !invalid ==> number[0] == '8' || number[..2] == "+7"
  {
    var eight := |number| >= 1 && number[0] == '8'
                 && (GroupedBody(number[1..]) || BareBody(number[1..]));
    var plusSeven := |number| >= 2 && number[0] == '+' && number[1] == '7'
                     && (GroupedBody(number[2..]) || BareBody(number[2..]));
    !(eight || plusSeven)
  }

  /** A number the validator accepts: the polarity of `valid_number` turned the right way round. */
  predicate IsValid(number: string)
  {
    !IsInvalid(number)
  }

  /** The two prefixes the pattern allows. */
  datatype Prefix = Eight | PlusSeven

  /** The two layouts of the ten subscriber digits. */
  datatype Layout = Grouped | Bare

  function PrefixText(p: Prefix): string
  {
    match p
    case Eight => "8"
    case PlusSeven => "+7"
  }

  /** Writes ten subscriber digits in a layout after a prefix: an independent description of the accepted numbers. */
  function Render(p: Prefix, l: Layout, d: string): string
    requires |d| == 10
  {
    match l
    case Bare => PrefixText(p) + d
    case Grouped => PrefixText(p) + Group(d)
  }

  function Group(d: string): string
    requires |d| == 10
  {
    "(" + d[..3] + ")" + d[3..6] + "-" + d[6..8] + "-" + d[8..]
  }

  /** The ten digits of a grouped subscriber part, with the punctuation removed. */
  function Ungroup(s: string): string
    requires |s| == 14
  {
    s[1..4] + s[5..8] + s[9..11] + s[12..14]
  }

  /** A number is acceptable when some prefix, layout and ten digits render to it. */
  ghost predicate Acceptable(number: string)
  {
    exists p: Prefix, l: Layout, d: string :: |d| == 10 && AllDigits(d) && Render(p, l, d) == number
  }

  lemma GroupRoundTrip(s: string)
    requires GroupedBody(s)
    ensures |Ungroup(s)| == 10 && AllDigits(Ungroup(s))
    ensures Group(Ungroup(s)) == s
  {
    var d := Ungroup(s);
    assert forall i :: 0 <= i < 3 ==> d[i] == s[1 + i];
    assert forall i :: 3 <= i < 6 ==> d[i] == s[2 + i];
    assert forall i :: 6 <= i < 8 ==> d[i] == s[3 + i];
    assert forall i :: 8 <= i < 10 ==> d[i] == s[4 + i];
    var g := Group(d);
    assert |g| == 14;
    forall i | 0 <= i < 14
      ensures g[i] == s[i]
    {
      if 1 <= i < 4 {
        assert g[i] == d[i - 1];
      }
    }
  }

  lemma GroupIsGroupedBody(d: string)
    requires |d| == 10 && AllDigits(d)
    ensures GroupedBody(Group(d))
  {
    var g := Group(d);
    assert g[1..4] == d[..3];
    assert g[5..8] == d[3..6];
    assert g[9..11] == d[6..8];
    assert g[12..14] == d[8..];
  }

  /**
   * The validator accepts exactly the rendered numbers: `valid_number` is false precisely for
   * `8` or `+7` followed by `(ddd)ddd-dd-dd` or by ten digits.
   */
  lemma AcceptedIffRendered(number: string)
    ensures !IsInvalid(number) <==> Acceptable(number)
  {
    if !IsInvalid(number) {
      var p := if number[0] == '8' then Eight else PlusSeven;
      var k := |PrefixText(p)|;
      assert number[..k] == PrefixText(p);
      var body := number[k..];
      assert number == PrefixText(p) + body;
      if GroupedBody(body) {
        GroupRoundTrip(body);
        assert Render(p, Grouped, Ungroup(body)) == number;
      } else {
        assert Render(p, Bare, body) == number;
      }
    }
    if Acceptable(number) {
      var p: Prefix, l: Layout, d: string :| |d| == 10 && AllDigits(d) && Render(p, l, d) == number;
      var k := |PrefixText(p)|;
      assert number[k..] == (if l == Bare then d else Group(d));
      if l == Grouped {
        GroupIsGroupedBody(d);
      }
    }
  }

  /** Typing `cancel` at a number prompt is never an acceptable number. */
  lemma CancelIsInvalid()
    ensures IsInvalid("cancel")
  {
  }
}

=== FILE: wrappers.dfy ===
/** Outcome types shared by the telephone-book model. */
module Wrappers {

  /** A value that may be absent. */
  datatype Option<+T> = None | Some(value: T)

  /** The outcome of an operation that may fail with an error of type `E`. */
  datatype Result<+T, +E> = Success(value: T) | Failure(error: E)

  /**
   * The outcome of an interactive step that reads the user's answers from the front of a list:
   * what it yields, or that the user cancelled it, with how many answers it read; `Raised` when
   * the answers ran out, as `input()` raises at the end of input.
   */
  datatype Reply<T> = Got(value: T, used: nat) | Cancelled(used: nat) | Raised

  /** A reply that did not raise read at least one answer and no more than were given. */
  ghost predicate Consumes<S, T>(inputs: seq<S>, r: Reply<T>)
  {
    r.Raised? || 0 < r.used <= |inputs|
  }

  /** How many answers were turned down before the one that ended the step (all of them if it raised). */
  function Skipped<S, T>(inputs: seq<S>, r: Reply<T>): int
  {
    if r.Raised? then |inputs| else r.used - 1
  }

  /** The same reply after `n` more answers read before it. */
  function After<T>(n: nat, r: Reply<T>): Reply<T>
  {
    match r
    case Got(v, u) => Got(v, n + u)
    case Cancelled(u) => Cancelled(n + u)
    case Raised => Raised
  }
}
